=== FILE: README.md ===
# RequireJS plugin core, modelled in Dafny

This project models the core of an IDE plugin that completes and resolves
RequireJS module names. The plugin does not reimplement how RequireJS
resolves names. It loads the project's own RequireJS library and
configuration into an embedded JavaScript engine and asks the loaded
`require.toUrl` for each dependency name. The model covers three pieces.

- **The runtime (`RequireJsRuntime`).** It builds a global scope:
  the engine's standard objects, `window` and `console` bound to null, the
  library file and then the configuration file. It answers
  `resolvePath(depName)` by calling `toUrl(depName + ".")` and stripping the
  final dot with Java's `replaceAll("\\.$", "")`. Every answer is memoised
  per instance, a `null` answer included. All engine work runs inside a
  `withContext` bracket that enters an engine context and exits it on every
  path.
- **The settings record (`Settings`).** It holds fixed defaults, a version
  computed from eight scalar fields, and a listener list. Listeners are
  appended on registration, removed by first occurrence, and each entry is
  notified once in order by `getState`.
- **The settings page's decision logic (`RequirejsSettingsPage`).** It
  covers `isModified`, the set-equality list check, `saveSettings` with its
  conditional base URL, `loadSettings`/`reset`, and the order of events in
  `apply`. These are pure functions over a snapshot of the form's widget
  values.

The JavaScript engine is an oracle (`ScriptingHost.Engine`) with three
parts:

- the standard-objects scope;
- what evaluating a file against a scope yields (`Evaluated`, `ReadFailed`,
  `ScriptFailed` or `Raised`);
- what a JavaScript function returns for a single string argument.

Each operation returns its trace of events: context entries and exits, the
null bindings, each call of `evaluateFile` (with the scope the file is handed over with), `toUrl`
calls, and error and debug reports. Ordering, report counts and engine calls
are stated on these traces. Java exceptions that the code does not catch
appear as `Completion.Thrown`.

Files:

- `counting.dfy`: counting the elements of a sequence that satisfy a
  predicate, used for event traces and notifications.
- `scripting_host.dfy`: engine oracle, events, `withContext`, and the
  enter/exit balance.
- `path_normalization.dfy`: Java's `\.$` replacement.
- `runtime.dfy`: construction and `resolvePath`.
- `settings.dfy`: the settings record.
- `settings_page.dfy`: the page logic.

Points where the code's behaviour is easy to misread:

- **Dots stripped.** The pattern `\.$` removes exactly one dot, never a
  run of trailing dots. Java's `$` also matches before a final line
  terminator. So the removed dot may also be the one just before a final
  `\n`, `\r`, `\r\n`, U+0085, U+2028 or U+2029.
- **Context bracket during construction.** The whole constructor runs
  inside one `withContext`, both file evaluations included.
- **Which load failures are reported.** `evaluateFile` catches only
  `IOException` and `ECMAException | EcmaError`, reports them and goes on.
  Any other exception from evaluating a file escapes the constructor
  (`EvalOutcome.Raised`). When the library file escapes, the configuration
  file is not evaluated.
- **Resolver failures.** A missing, undefined, primitive or null `require`
  makes the cast or the member lookup fail. An exception thrown by `toUrl`
  is also not caught. In all these cases `resolvePath` ends with an
  exception and the cache is left unchanged, because `cache.put` is not
  reached.

## Model

| member | source | states |
|---|---|---|
| ScriptingHost.WithContext | src/requirejs/RequireJsRuntime.java:85-92 | the body's result (value or exception) is returned unchanged; the trace is one context entry, the body, then one exit |
| ScriptingHost.WithContextBalanced | src/requirejs/RequireJsRuntime.java:85-92 | a balanced body stays balanced inside the bracket: no prefix exits more than it entered, and the depth returns to its start on normal and exceptional completion alike |
| PathNormalization.StripFinalDot | src/requirejs/RequireJsRuntime.java:79 | with no match the text is unchanged; otherwise exactly the matched dot is removed and the rest is kept in order |
| PathNormalization.StripFinalDotIsReplaceAll | src/requirejs/RequireJsRuntime.java:79 | the direct definition equals `replaceAll` read literally: every position where `\.$` (Java's non-multiline `$`) matches is dropped |
| PathNormalization.StripAppendedDot | src/requirejs/RequireJsRuntime.java:74-79 | a dot appended to any text is removed again and nothing else is: `s + "."` becomes `s` |
| PathNormalization.StripKeepsEarlierDots | src/requirejs/RequireJsRuntime.java:79 | only one dot goes: `s + ".."` becomes `s + "."` |
| PathNormalization.StripBeforeFinalNewline | src/requirejs/RequireJsRuntime.java:79 | Java's `$` matches before a final line terminator, so `s + ".\n"` becomes `s + "\n"` |
| PathNormalization.StripLeavesOtherTextAlone | src/requirejs/RequireJsRuntime.java:79 | text whose last character is neither a dot nor a line terminator comes back unchanged |
| RequireJsRuntime.InitScope | src/requirejs/RequireJsRuntime.java:30-36 | `window` and `console` are bound to null, in that order; every other standard global is kept |
| RequireJsRuntime.EvaluateFile | src/requirejs/RequireJsRuntime.java:43-54 | the file is handed to the engine with the current scope; a read or JS error gives exactly one error report and is swallowed (scope unchanged after a read error, partial scope after a JS error); only other exceptions escape |
| RequireJsRuntime.InitRequireJs | src/requirejs/RequireJsRuntime.java:38-54 | the library file is handed over first; if it escapes, no other file is attempted and the exception propagates; otherwise the config file is attempted in the scope the library left, the result escapes iff the config escapes, the resulting scope is the one the config file left, and exactly one error is reported per failed file |
| RequireJsRuntime.Construct | src/requirejs/RequireJsRuntime.java:19-28 | a constructed instance has an empty cache, and construction's context entries and exits are balanced whichever way it ends |
| RequireJsRuntime.ConstructionBindsGlobalsFirst | src/requirejs/RequireJsRuntime.java:21-39 | the trace starts with context entry, `window` := null, `console` := null, and only then the library file, evaluated in a scope where both are null; the context is exited last |
| RequireJsRuntime.ConstructionEvaluatesConfigAfterLibrary | src/requirejs/RequireJsRuntime.java:38-54 | unless the library escapes, the config file is evaluated after it in the scope it left (also after its failure); the instance exists iff the config does not escape, and then holds the scope the config left and an empty cache |
| RequireJsRuntime.ConstructionReportsEachFailedFileOnce | src/requirejs/RequireJsRuntime.java:38-54 | unless the library escapes, construction reports exactly one error per failed file (read or JS error) and no other |
| RequireJsRuntime.ConstructionAbortsOnEscapingLibrary | src/requirejs/RequireJsRuntime.java:38-54 | an uncaught exception from the library file ends construction before the config file, with the context exited |
| RequireJsRuntime.LookupToUrl | src/requirejs/RequireJsRuntime.java:67-68 | the lookup succeeds iff `require` is bound to an object or function; it yields a member iff `require` has a `toUrl` property, and that member is `require.toUrl`'s value |
| RequireJsRuntime.ResolveBody | src/requirejs/RequireJsRuntime.java:67-81 | the work inside the bracket enters or exits no context, calls `toUrl` at most once, and only with `depName + "."` |
| RequireJsRuntime.CallEvents | src/requirejs/RequireJsRuntime.java:73-80 | around one `toUrl` call: the call is the second report, made with the name and a dot; it is the only call, and no error is reported |
| RequireJsRuntime.ResolveWithRequire | src/requirejs/RequireJsRuntime.java:65-83 | inside one balanced context bracket: fails iff `require` cannot be read or `toUrl` throws; answers null iff `toUrl` is not a function; otherwise answers `toUrl`'s result with its final dot stripped |
| RequireJsRuntime.ResolvePath | src/requirejs/RequireJsRuntime.java:56-63 | a cached name (also one cached as null) is answered from the cache with no events; an uncached name is answered by `resolveWithRequire` (its events and outcome, a missing or null `require` included); a normal answer is cached under the name; an exception leaves the instance unchanged; the scope is never changed; the cache only grows and gains at most this name; events are balanced. The unchanged scope rests on calling `toUrl` having no side effects (see Left out) |
| RequireJsRuntime.ResolveMissCallsToUrlOnce | src/requirejs/RequireJsRuntime.java:65-82 | on a miss with a callable `toUrl`, it is called exactly once, with `depName + "."`, and no error is reported; the answer is the call's result with its final dot stripped; if the call throws, the query fails and the instance is unchanged |
| RequireJsRuntime.ResolveCallsOwnNameOnly | src/requirejs/RequireJsRuntime.java:56-77 | one query calls `toUrl` at most once, and only with its own name followed by a dot |
| RequireJsRuntime.ResolveMissNotCallable | src/requirejs/RequireJsRuntime.java:56-72 | on a miss with a missing or non-function `toUrl`, exactly one error is reported, nothing is called, and the answer and the new cache entry are null |
| RequireJsRuntime.ResolveUndoesAppendedDot | src/requirejs/RequireJsRuntime.java:74-79 | if `toUrl(depName + ".")` returns `s + "."`, the resolved path is exactly `s` |
| RequireJsRuntime.ResolveTwiceSameAnswer | src/requirejs/RequireJsRuntime.java:56-63 | after a successful query, asking again returns the same answer with no engine work and no change to the instance |
| RequireJsRuntime.NewInstanceAsksEngineAgain | src/requirejs/RequireJsRuntime.java:19-28 | a newly constructed instance remembers nothing: its first query for any name calls `toUrl` once |
| RequireJsRuntime.ResolveAll | src/requirejs/RequireJsRuntime.java:56-63 | across a sequence of queries that stops at the first exception, the scope is unchanged (given a side-effect-free `toUrl`, see Left out) and cache entries are never removed or altered; a session that did not fail answers every query |
| RequireJsRuntime.SessionStopsOnlyAtThrow | src/requirejs/RequireJsRuntime.java:56-63 | a session fails only at a query that throws: it answered every query before it, and that query throws on the instance the session ends with |
| RequireJsRuntime.SessionAnswersAreCached | src/requirejs/RequireJsRuntime.java:56-63 | every answer a sequence of queries gives is the cache's entry for that name at its end |
| RequireJsRuntime.AtMostOneCallPerName | src/requirejs/RequireJsRuntime.java:56-63 | over any sequence of queries on one instance that stops at its first exception, `toUrl` is called at most once for each name |
| RequireJsRuntime.ThrowingNameIsRetried | src/requirejs/RequireJsRuntime.java:56-77 | when `toUrl` throws for an uncached name, nothing is cached, so asking for that name again calls `toUrl` again and throws again |
| RequireJsRuntime.MissingToUrlAnswersNull | src/requirejs/RequireJsRuntime.java:56-72 | with a non-function `toUrl`, no query of a sequence fails and every answer is null |
| RequireJsRuntime.OneReportPerMissingName | src/requirejs/RequireJsRuntime.java:56-72 | with a non-function `toUrl`, a sequence of queries reports it exactly once per distinct uncached name, however often names repeat |
| RequirejsSettings.Fresh | src/requirejs/settings/Settings.java:24-44 | a fresh instance has its declared defaults: publicPath "public", configFilePath "main.js", baseUrl ".", requireJsPath "public/lib/require.js", all four flags false; no exclusions, no listeners and no project yet |
| RequirejsSettings.Version | src/requirejs/settings/Settings.java:64-67 | `getVersion` hashes the eight scalar fields and only them: any settings agreeing on those scalars hash to the same value |
| RequirejsSettings.VersionIgnoresOtherFields | src/requirejs/settings/Settings.java:64-67 | settings that agree on the eight scalars have the same version, whatever their exclusions, listeners or project |
| RequirejsSettings.VersionDistinguishesScalars | src/requirejs/settings/Settings.java:64-67 | for a collision-free hash, the versions are equal iff all eight scalars agree |
| RequirejsSettings.RegisterListener | src/requirejs/settings/Settings.java:69-71 | the listener is added at the end; earlier listeners and every other field are unchanged |
| RequirejsSettings.RemoveFirst | src/requirejs/settings/Settings.java:73-75 | `List.remove(Object)`: with the element absent the list is unchanged; otherwise it is one shorter and has one occurrence fewer |
| RequirejsSettings.RemoveFirstOccurrence | src/requirejs/settings/Settings.java:73-75 | it is the first occurrence that is removed, and the other elements keep their order |
| RequirejsSettings.RemoveListener | src/requirejs/settings/Settings.java:73-75 | only the listener list changes; it is a no-op for an absent listener and removes one occurrence otherwise |
| RequirejsSettings.RemoveUndoesRegister | src/requirejs/settings/Settings.java:69-75 | registering a listener not yet present and then removing it restores the settings |
| RequirejsSettings.RemoveKeepsLaterDuplicate | src/requirejs/settings/Settings.java:69-75 | a listener registered twice and removed once is still registered once |
| RequirejsSettings.GetState | src/requirejs/settings/Settings.java:54-57 | every listener entry is notified once, in registration order, with the settings; the settings are returned unchanged |
| RequirejsSettings.NotifiedOncePerRegistration | src/requirejs/settings/Settings.java:54-57 | each listener gets as many notifications as it has registrations (twice if registered twice, never if absent) |
| SettingsPage.ContainsAll | src/requirejs/settings/RequirejsSettingsPage.java:97 | `a.containsAll(b)` holds iff every element of `b` occurs in `a` |
| SettingsPage.GetExclusionList | src/requirejs/settings/RequirejsSettingsPage.java:100-108 | the copied list has the list model's elements, in the same order |
| SettingsPage.ListChanged | src/requirejs/settings/RequirejsSettingsPage.java:94-98 | despite its name, true exactly when the form list and the settings list hold the same elements as sets |
| SettingsPage.ListCheckIgnoresRepetition | src/requirejs/settings/RequirejsSettingsPage.java:94-98 | repeating an element already in the form list does not change the check |
| SettingsPage.ListCheckIgnoresOrder | src/requirejs/settings/RequirejsSettingsPage.java:94-98 | reordering the form list does not change the check |
| SettingsPage.IsModified | src/requirejs/settings/RequirejsSettingsPage.java:81-92 | true iff some widget differs from its setting or the two exclusion lists differ as sets; each `!box == flag` term means `box != flag` |
| SettingsPage.SaveSettings | src/requirejs/settings/RequirejsSettingsPage.java:122-136 | every widget is copied into its setting, except that the base URL is written only when the override box is checked; the listeners are unchanged, and so is the project of the settings object passed in (the assignment `getSettings()` makes through `Settings.getInstance` is left out) |
| SettingsPage.SavedFormIsUnmodifiedUnlessBaseUrlSkipped | src/requirejs/settings/RequirejsSettingsPage.java:122-133 | after saving, the page reads as modified iff the override box is unchecked and the base URL field differs from the stored base URL |
| SettingsPage.LoadSettings | src/requirejs/settings/RequirejsSettingsPage.java:138-147 | every scalar widget shows its setting, and the exclusion list model is left untouched |
| SettingsPage.Reset | src/requirejs/settings/RequirejsSettingsPage.java:150-152 | reset loads the scalar widgets from the settings and leaves the list as it is |
| SettingsPage.ResetLeavesListDifference | src/requirejs/settings/RequirejsSettingsPage.java:138-152 | after reset, the page is modified iff the form's list and the settings' list differ as sets |
| SettingsPage.SaveAfterLoad | src/requirejs/settings/RequirejsSettingsPage.java:122-147 | saving a form just loaded from the settings changes only the exclusion list, which becomes the form's |
| SettingsPage.LoadAfterSave | src/requirejs/settings/RequirejsSettingsPage.java:122-147 | loading right after saving gives the form back iff the override box was checked or the base URL field already equalled the stored one |
| SettingsPage.OpenForm | src/requirejs/settings/RequirejsSettingsPage.java:58-61 | a page just created (widgets loaded, list model built from the settings' list) is not modified |
| SettingsPage.Apply | src/requirejs/settings/RequirejsSettingsPage.java:114-135 | the parse state is cleared first and resolve caches are dropped last; in between the settings are written and only then validated; no event happens twice; the result is the saved settings |
| SettingsPage.ApplyLeavesPageUnmodified | src/requirejs/settings/RequirejsSettingsPage.java:81-135 | after applying, the page reads as modified iff the override box is unchecked and the base URL field differs from the stored base URL |

## Left out

- The JavaScript engine itself (`initStandardObjects`, `evaluateReader`, `evaluateString`, `Function.call`, `Context.toString`) is an oracle. What a file defines and what `toUrl` returns are whatever the oracle says.
- Reading files (`FileInputStream`), including the unclosed stream, is folded into the oracle's evaluation outcome.
- Calling `toUrl` (`f.call(ctx, globalScope, require, args)`) is assumed to be deterministic and free of side effects: the oracle maps a function and an argument to a result and cannot touch the global scope. In the real engine that JavaScript runs against the live scope and could, for instance, rebind `require`. The unchanged scope promised by `RequireJsRuntime.ResolvePath` and `RequireJsRuntime.ResolveAll` rests on this assumption.
- RequireJsRuntime.AtMostOneCallPerName: holds for sessions that stop at their first escaping exception, as `ResolveAll` does. A caller that catches the exception and asks for the same name again calls `toUrl` again, because `cache.put` was never reached; `RequireJsRuntime.ThrowingNameIsRetried` proves this.
- RequirejsSettings.GetState: listeners are assumed to return normally and to modify neither the settings nor the listener list. A `settingsChanged` that throws stops `forEach` and makes `getState` throw. One that registers or removes a listener makes `ArrayList.forEach` throw `ConcurrentModificationException`. One that writes the public fields changes what is returned. In all three cases later entries may go unnotified. `RequirejsSettings.NotifiedOncePerRegistration` rests on the same assumption.
- The wording of notifications is not modelled; only which error or debug report occurs is.
- The second debug message reads `component.getConfigFileDir().toString()`. That method is not part of this model, so the model assumes this call at line 80 of `RequireJsRuntime.java` completes normally. If `getConfigFileDir()` returns null, or throws, the query fails after `toUrl` was already called. Nothing is cached then, so every later query for that name calls `toUrl` again. `RequireJsRuntime.ResolveMissCallsToUrlOnce`, the caching promised by `RequireJsRuntime.ResolvePath` and `RequireJsRuntime.AtMostOneCallPerName` rest on this assumption.
- Which Rhino or Nashorn exception classes are caught is decided by the oracle's outcome kind (`ScriptFailed` versus `Raised`); the class hierarchy itself is not modelled.
- Concurrency is not modelled: the unsynchronised `HashMap` and the engine context's thread affinity. The resolver is single-threaded here.
- `getVersion` is modelled as the hash's integer value, not its decimal string. `Objects.hash` is a parameter, and its actual values are not modelled.
- `Settings.getInstance`, `loadState` (`XmlSerializerUtil.copyBean`), and the `@State` persistence are IDE services and are left out.
- `RequirejsProjectComponent` (`clearParse`, `validateSettings`, notification display) and `PsiManager.dropResolveCaches` appear only as events.
- The Swing construction in `createComponent` is left out: toolbar decorator, input dialog and layout constraints. So are `getDisplayName`, `getHelpTopic` and `disposeUIResources`. Whether the list model shares or copies the settings' list is not modelled, because the form is a value.
- `tests/requirejs/ConfigParseTest.java` is an IDE fixture test over JavaScript files that are not part of this model.

=== FILE: counting.dfy ===
/** Counting the elements of a sequence that satisfy a predicate, shared by the event traces and the listener notifications. */
module Counting {

  /** Number of elements of `xs` satisfying `p`. */
  function Count<T>(xs: seq<T>, p: T -> bool): (n: nat)
    ensures n <= |xs|
  {
    if |xs| == 0 then 0 else (if p(xs[0]) then 1 else 0) + Count(xs[1..], p)
  }

  lemma {:induction false} CountAppend<T>(xs: seq<T>, ys: seq<T>, p: T -> bool)
    ensures Count(xs + ys, p) == Count(xs, p) + Count(ys, p)
  {
    if |xs| == 0 {
      assert xs + ys == ys;
    } else {
      assert (xs + ys)[1..] == xs[1..] + ys;
      CountAppend(xs[1..], ys, p);
    }
  }

  lemma {:induction false} CountNone<T>(xs: seq<T>, p: T -> bool)
    requires forall i :: 0 <= i < |xs| ==> !p(xs[i])
    ensures Count(xs, p) == 0
  {
    if |xs| > 0 {
      CountNone(xs[1..], p);
    }
  }

  lemma {:induction false} CountAtMost<T>(xs: seq<T>, p: T -> bool, q: T -> bool)
    requires forall x :: p(x) ==> q(x)
    ensures Count(xs, p) <= Count(xs, q)
  {
    if |xs| > 0 {
      CountAtMost(xs[1..], p, q);
    }
  }
}

=== FILE: path_normalization.dfy ===
/**
  The path clean-up the resolver applies to whatever `require.toUrl`
  returns: Java's `path.replaceAll("\\.$", "")`.

  In Java's default (non-MULTILINE) mode the anchor `$` matches at the end
  of the input and also just before a line terminator that ends the input
  (`\n`, `\r`, U+0085, U+2028, U+2029, or the pair `\r\n`). The
  pattern `\.$` therefore matches a literal dot at the very end, or a dot
  followed only by one final line terminator. `RemoveMatches` is the
  reference reading of `replaceAll` (drop every position where the pattern
  matches); `StripFinalDot` is the direct definition the resolver uses,
  and `StripFinalDotIsReplaceAll` shows they agree.
*/
module PathNormalization {

  predicate IsLineTerminator(c: char)
  {
    c == '\n' || c == '\r' || c == '\U{0085}' || c == '\U{2028}' || c == '\U{2029}'
  }

  /** Java's `$` without MULTILINE matches at position `i` of `s`. */
  predicate EndAnchorAt(s: string, i: nat)
  {
    || i == |s|
    || (i + 1 == |s| && IsLineTerminator(s[i]) && !(s[i] == '\n' && i > 0 && s[i - 1] == '\r'))
    || (i + 2 == |s| && s[i] == '\r' && s[i + 1] == '\n')
  }

  /** The pattern `\.$` matches the one-character span starting at `p`. */
  predicate DotMatchAt(s: string, p: nat)
  {
    p < |s| && s[p] == '.' && EndAnchorAt(s, p + 1)
  }

  /** `replaceAll` read literally: keep the characters at `i..` where the pattern does not match. */
  function RemoveMatches(s: string, i: nat): (r: string)
    requires i <= |s|
    decreases |s| - i
  {
    if i == |s| then []
    else (if DotMatchAt(s, i) then [] else [s[i]]) + RemoveMatches(s, i + 1)
  }

  /** The pattern matches in at most one place. */
  lemma AtMostOneMatch(s: string, p: nat, q: nat)
    requires DotMatchAt(s, p) && DotMatchAt(s, q)
    ensures p == q
  {
  }

  /** Position of the single match, when there is one. */
  function MatchPosition(s: string): (p: int)
    ensures p >= 0 ==> DotMatchAt(s, p)
    ensures p < 0 ==> p == -1 && forall i: nat :: !DotMatchAt(s, i)
  {
    if |s| >= 1 && s[|s| - 1] == '.' then |s| - 1
    else if |s| >= 2 && s[|s| - 2] == '.' && IsLineTerminator(s[|s| - 1]) then |s| - 2
    else if |s| >= 3 && s[|s| - 3] == '.' && s[|s| - 2] == '\r' && s[|s| - 1] == '\n' then |s| - 3
    else -1
  }

  /**
    The resolver's normalisation: remove the one dot the pattern matches,
    keep everything else as it is.
  */
  function StripFinalDot(s: string): (r: string)
    ensures (forall i: nat :: !DotMatchAt(s, i)) ==> r == s
    ensures forall p: nat :: DotMatchAt(s, p) ==> r == s[..p] + s[p + 1..]
    ensures |r| == |s| || |r| == |s| - 1
  {
    var p := MatchPosition(s);
    if p < 0 then s else s[..p] + s[p + 1..]
  }

  lemma {:induction false} RemoveMatchesNone(s: string, i: nat)
    requires i <= |s|
    requires forall j: nat :: i <= j < |s| ==> !DotMatchAt(s, j)
    ensures RemoveMatches(s, i) == s[i..]
    decreases |s| - i
  {
    if i < |s| {
      RemoveMatchesNone(s, i + 1);
      assert s[i..] == [s[i]] + s[i + 1..];
    }
  }

  lemma {:induction false} RemoveMatchesFrom(s: string, i: nat, p: nat)
    requires i <= p && DotMatchAt(s, p)
    ensures RemoveMatches(s, i) == s[i..p] + s[p + 1..]
    decreases |s| - i
  {
    if i == p {
      forall j: nat | p + 1 <= j < |s|
        ensures !DotMatchAt(s, j)
      {
        if DotMatchAt(s, j) {
          AtMostOneMatch(s, p, j);
        }
      }
      RemoveMatchesNone(s, p + 1);
    } else {
      RemoveMatchesFrom(s, i + 1, p);
      if DotMatchAt(s, i) {
        AtMostOneMatch(s, i, p);
      }
      assert s[i..p] == [s[i]] + s[i + 1..p];
    }
  }

  /** The direct definition is exactly Java's `replaceAll("\\.$", "")`. */
  lemma StripFinalDotIsReplaceAll(s: string)
    ensures StripFinalDot(s) == RemoveMatches(s, 0)
  {
    var p := MatchPosition(s);
    if p < 0 {
      RemoveMatchesNone(s, 0);
    } else {
      RemoveMatchesFrom(s, 0, p);
    }
  }

  /** The workaround's intended effect: a dot appended at the end is removed again, and only it. */
  lemma StripAppendedDot(s: string)
    ensures StripFinalDot(s + ".") == s
  {
  }

  /** Only one dot goes: two trailing dots leave one. */
  lemma StripKeepsEarlierDots(s: string)
    ensures StripFinalDot(s + "..") == s + "."
  {
  }

  /** A dot followed by a single final line terminator is removed too: Java's `$` matches before it. */
  lemma StripBeforeFinalNewline(s: string)
    ensures StripFinalDot(s + ".\n") == s + "\n"
  {
  }

  /** Text that does not end in a dot (and has no dot before a final line terminator) is unchanged. */
  lemma StripLeavesOtherTextAlone(s: string)
    requires |s| == 0 || (s[|s| - 1] != '.' && !IsLineTerminator(s[|s| - 1]))
    ensures StripFinalDot(s) == s
  {
  }
}

=== FILE: runtime.dfy ===
/**
  `RequireJsRuntime`: boots a JavaScript scope with the RequireJS library
  and the project's configuration, then answers `resolvePath(depName)` by
  calling the loaded `require.toUrl`, memoising every answer per instance.

  The instance is a value here: its global scope and its cache. Every
  operation returns the events it produced (context entries and exits,
  calls of `evaluateFile`, `toUrl` calls, reports to the notification sink) so
  that ordering, report counts and engine calls can be stated exactly.
*/
module RequireJsRuntime {
  import opened Options
  import opened Counting
  import opened ScriptingHost
  import opened PathNormalization

  /** One runtime instance: the global scope and the resolution cache (`null` is `None`). */
  datatype Runtime = Runtime(scope: Scope, cache: map<string, Option<string>>)

  /** The outcome of one `resolvePath` call and the instance after it. */
  datatype Resolution = Resolution(runtime: Runtime, events: seq<Event>, outcome: Completion<Option<string>>)

  const WindowGlobal := "window"
  const ConsoleGlobal := "console"

  /**
    `initScope`: the engine's standard objects, then `var window = null;`
    and `var console = null;` evaluated in that order.
  */
  function InitScope(engine: Engine): (r: Run<Scope>)
    ensures r.result.Normal?
    ensures r.events == [NullDefined(WindowGlobal), NullDefined(ConsoleGlobal)]
    ensures var s := r.result.value;
      && WindowGlobal in s && s[WindowGlobal] == JsNull
      && ConsoleGlobal in s && s[ConsoleGlobal] == JsNull
      && s.Keys == engine.standardObjects.Keys + {WindowGlobal, ConsoleGlobal}
      && forall k :: k in engine.standardObjects && k != WindowGlobal && k != ConsoleGlobal ==> s[k] == engine.standardObjects[k]
  {
    var scope := engine.standardObjects[WindowGlobal := JsNull][ConsoleGlobal := JsNull];
    Run([NullDefined(WindowGlobal), NullDefined(ConsoleGlobal)], Normal(scope))
  }

  /**
    `evaluateFile`: hand the file to the engine; an IOException or a
    JavaScript error is reported once and swallowed, any other exception
    escapes. A JavaScript error keeps what the script defined before it.
  */
  function EvaluateFile(engine: Engine, scope: Scope, path: string): (r: Run<Scope>)
    ensures |r.events| >= 1 && r.events[0] == FileLoadAttempted(path, scope)
    ensures ContextFree(r.events)
    ensures r.result.Thrown? <==> engine.evaluate(scope, path).Raised?
    ensures Count(r.events, IsError) == (if engine.evaluate(scope, path).ReadFailed? || engine.evaluate(scope, path).ScriptFailed? then 1 else 0)
    ensures engine.evaluate(scope, path).ReadFailed? ==> r.result == Normal(scope)
    ensures engine.evaluate(scope, path).Evaluated? ==> r.result == Normal(engine.evaluate(scope, path).scope)
    ensures engine.evaluate(scope, path).ScriptFailed? ==> r.result == Normal(engine.evaluate(scope, path).scope)
  {
    var start := [FileLoadAttempted(path, scope)];
    match engine.evaluate(scope, path)
    case Evaluated(s) => Run(start, Normal(s))
    case ReadFailed(msg) => Run(start + [ErrorReported(FileReadError(path, msg))], Normal(scope))
    case ScriptFailed(s, msg) => Run(start + [ErrorReported(FileScriptError(path, msg))], Normal(s))
    case Raised(msg) => Run(start, Thrown(Escaped(msg)))
  }

  predicate IsError(e: Event) { e.ErrorReported? }

  /** `initRequireJs`: the library file, then the configuration file, in the scope the library left. */
  function InitRequireJs(engine: Engine, scope: Scope, requirePath: string, requireConfig: string): (r: Run<Scope>)
    ensures ContextFree(r.events)
    ensures |r.events| >= 1 && r.events[0] == FileLoadAttempted(requirePath, scope)
    ensures engine.evaluate(scope, requirePath).Raised? ==>
      r.result.Thrown? && forall i :: 0 <= i < |r.events| && r.events[i].FileLoadAttempted? ==> r.events[i].path == requirePath
    ensures !engine.evaluate(scope, requirePath).Raised? ==>
      var s := EvaluateFile(engine, scope, requirePath).result.value;
      && FileLoadAttempted(requireConfig, s) in r.events
      && (r.result.Thrown? <==> engine.evaluate(s, requireConfig).Raised?)
      && Count(r.events, IsError) == ReportsFor(engine.evaluate(scope, requirePath)) + ReportsFor(engine.evaluate(s, requireConfig))
      && (r.result.Normal? ==> r.result.value == EvaluateFile(engine, s, requireConfig).result.value)
  {
    var lib := EvaluateFile(engine, scope, requirePath);
    match lib.result
    case Thrown(e) => lib
    case Normal(s) =>
      var cfg := EvaluateFile(engine, s, requireConfig);
      CountAppend(lib.events, cfg.events, IsError);
      assert lib.events + cfg.events == lib.events + [cfg.events[0]] + cfg.events[1..];
      Run(lib.events + cfg.events, cfg.result)
  }

  /** The constructor body, run inside one `withContext`. */
  function ConstructBody(engine: Engine, requirePath: string, requireConfig: string): (r: Run<Runtime>)
    ensures ContextFree(r.events)
  {
    var init := InitScope(engine);
    var boot := InitRequireJs(engine, init.result.value, requirePath, requireConfig);
    match boot.result
    case Thrown(e) => Run(init.events + boot.events, Thrown(e))
    case Normal(s) => Run(init.events + boot.events, Normal(Runtime(s, map[])))
  }

  /** `new RequireJsRuntime(component, requirePath, requireConfig)`. */
  function Construct(engine: Engine, requirePath: string, requireConfig: string): (r: Run<Runtime>)
    ensures r.result.Normal? ==> r.result.value.cache == map[]
    ensures Balanced(r.events)
  {
    var body := ConstructBody(engine, requirePath, requireConfig);
    ContextFreeIsBalanced(body.events);
    WithContextBalanced(body);
    WithContext(body)
  }

  /** The scope the library file is evaluated in. */
  function BootScope(engine: Engine): Scope
  {
    InitScope(engine).result.value
  }

  /** Reports `evaluateFile` sends for an outcome: one for a read or script failure. */
  function ReportsFor(o: EvalOutcome): nat
  {
    if o.ReadFailed? || o.ScriptFailed? then 1 else 0
  }

  /**
    Construction order: enter the context, bind `window` then `console` to
    null, and only then hand the library file to the engine, in a scope
    where both are null. The context is exited last.
  */
  lemma ConstructionBindsGlobalsFirst(engine: Engine, requirePath: string, requireConfig: string)
    ensures var r := Construct(engine, requirePath, requireConfig);
      && |r.events| >= 5
      && r.events[..4] == [ContextEntered, NullDefined(WindowGlobal), NullDefined(ConsoleGlobal), FileLoadAttempted(requirePath, BootScope(engine))]
      && r.events[|r.events| - 1] == ContextExited
      && BootScope(engine)[WindowGlobal] == JsNull && BootScope(engine)[ConsoleGlobal] == JsNull
  {
  }

  /** The scope the library leaves behind when it does not escape. */
  function LibraryScope(engine: Engine, requirePath: string): Scope
    requires !engine.evaluate(BootScope(engine), requirePath).Raised?
  {
    EvaluateFile(engine, BootScope(engine), requirePath).result.value
  }

  /** Construction's trace when the library does not escape, spelled out piece by piece. */
  lemma ConstructTrace(engine: Engine, requirePath: string, requireConfig: string)
    requires !engine.evaluate(BootScope(engine), requirePath).Raised?
    ensures var r := Construct(engine, requirePath, requireConfig);
      var lib := EvaluateFile(engine, BootScope(engine), requirePath);
      var cfg := EvaluateFile(engine, LibraryScope(engine, requirePath), requireConfig);
      && r.events == [ContextEntered] + InitScope(engine).events + lib.events + cfg.events + [ContextExited]
      && (cfg.result.Normal? ==> r.result == Normal(Runtime(cfg.result.value, map[])))
      && (cfg.result.Thrown? ==> r.result.Thrown?)
  {
    var init := InitScope(engine);
    var lib := EvaluateFile(engine, BootScope(engine), requirePath);
    var cfg := EvaluateFile(engine, LibraryScope(engine, requirePath), requireConfig);
    assert lib.result == Normal(LibraryScope(engine, requirePath));
    var boot := InitRequireJs(engine, BootScope(engine), requirePath, requireConfig);
    assert boot.events == lib.events + cfg.events && boot.result == cfg.result;
    var body := ConstructBody(engine, requirePath, requireConfig);
    assert body.events == init.events + boot.events;
    assert [ContextEntered] + body.events + [ContextExited]
        == [ContextEntered] + init.events + lib.events + cfg.events + [ContextExited];
  }

  /**
    Fault tolerance of construction: unless the library escapes with an
    uncaught exception, the configuration file is evaluated afterwards in
    the scope the library left (after a read failure, the scope it was
    given), and the instance is built unless the configuration file escapes.
  */
  lemma ConstructionEvaluatesConfigAfterLibrary(engine: Engine, requirePath: string, requireConfig: string)
    requires !engine.evaluate(BootScope(engine), requirePath).Raised?
    ensures var r := Construct(engine, requirePath, requireConfig);
      var libScope := LibraryScope(engine, requirePath);
      var cfgOutcome := engine.evaluate(libScope, requireConfig);
      && (exists j :: 4 <= j < |r.events| && r.events[j] == FileLoadAttempted(requireConfig, libScope))
      && (engine.evaluate(BootScope(engine), requirePath).ReadFailed? ==> libScope == BootScope(engine))
      && (r.result.Normal? <==> !cfgOutcome.Raised?)
      && (r.result.Normal? ==> r.result.value == Runtime(EvaluateFile(engine, libScope, requireConfig).result.value, map[]))
  {
    ConstructTrace(engine, requirePath, requireConfig);
    var r := Construct(engine, requirePath, requireConfig);
    var lib := EvaluateFile(engine, BootScope(engine), requirePath);
    var cfg := EvaluateFile(engine, LibraryScope(engine, requirePath), requireConfig);
    var j := 3 + |lib.events|;
    assert r.events[j] == cfg.events[0];
  }

  /** Each failed file of a construction is reported exactly once, and nothing else is. */
  lemma ConstructionReportsEachFailedFileOnce(engine: Engine, requirePath: string, requireConfig: string)
    requires !engine.evaluate(BootScope(engine), requirePath).Raised?
    ensures Count(Construct(engine, requirePath, requireConfig).events, IsError)
         == ReportsFor(engine.evaluate(BootScope(engine), requirePath))
          + ReportsFor(engine.evaluate(LibraryScope(engine, requirePath), requireConfig))
  {
    ConstructTrace(engine, requirePath, requireConfig);
    var init := InitScope(engine);
    var lib := EvaluateFile(engine, BootScope(engine), requirePath);
    var cfg := EvaluateFile(engine, LibraryScope(engine, requirePath), requireConfig);
    CountAppend([ContextEntered], init.events, IsError);
    CountAppend([ContextEntered] + init.events, lib.events, IsError);
    CountAppend([ContextEntered] + init.events + lib.events, cfg.events, IsError);
    CountAppend([ContextEntered] + init.events + lib.events + cfg.events, [ContextExited], IsError);
  }

  /** A library file that escapes with an uncaught exception aborts construction before the configuration file. */
  lemma ConstructionAbortsOnEscapingLibrary(engine: Engine, requirePath: string, requireConfig: string)
    requires engine.evaluate(BootScope(engine), requirePath).Raised?
    ensures var r := Construct(engine, requirePath, requireConfig);
      && r.result == Thrown(Escaped(engine.evaluate(BootScope(engine), requirePath).message))
      && r.events == [ContextEntered, NullDefined(WindowGlobal), NullDefined(ConsoleGlobal),
                      FileLoadAttempted(requirePath, BootScope(engine)), ContextExited]
  {
  }

  /**
    `(Scriptable) globalScope.get("require")` then `require.get("toUrl")`.
    A missing, undefined or primitive `require` fails the cast; a null one
    fails on the member lookup. A missing `toUrl` is `None`.
  */
  function LookupToUrl(scope: Scope): (r: Completion<Option<JsValue>>)
    ensures r.Normal? <==> "require" in scope && (scope["require"].JsObject? || scope["require"].JsFunction?)
    ensures r.Normal? ==> (r.value.Some? <==> "toUrl" in scope["require"].props)
    ensures r.Normal? && r.value.Some? ==> r.value.value == scope["require"].props["toUrl"]
  {
    if "require" !in scope then Thrown(ClassCast)
    else match scope["require"]
      case JsNull => Thrown(NullPointer)
      case JsUndefined => Thrown(ClassCast)
      case JsPrimitive(_) => Thrown(ClassCast)
      case JsObject(props) => Normal(if "toUrl" in props then Some(props["toUrl"]) else None)
      case JsFunction(_, props) => Normal(if "toUrl" in props then Some(props["toUrl"]) else None)
  }

  /** `toUrl instanceof Function`. */
  predicate IsCallable(member: Option<JsValue>)
  {
    member.Some? && member.value.JsFunction?
  }

  /** The engine work of a cache miss, inside the `withContext` bracket of `resolveWithRequire`. */
  function ResolveBody(engine: Engine, scope: Scope, depName: string): (r: Run<Option<string>>)
    ensures ContextFree(r.events)
    ensures forall i :: 0 <= i < |r.events| && r.events[i].ToUrlCalled? ==> r.events[i].argument == depName + "."
    ensures Count(r.events, IsToUrlCall) <= 1
  {
    match LookupToUrl(scope)
    case Thrown(e) => Run([], Thrown(e))
    case Normal(member) =>
      if !IsCallable(member) then
        assert Count([ErrorReported(ToUrlNotFound)], IsToUrlCall) == 0;
        Run([ErrorReported(ToUrlNotFound)], Normal(None))
      else
        var f := member.value.id;
        match engine.call(f, depName + ".")
        case CallThrew(msg) => Run(CallEvents(depName, f, None), Thrown(Escaped(msg)))
        case Returned(text) =>
          var path := StripFinalDot(text);
          Run(CallEvents(depName, f, Some(path)), Normal(Some(path)))
  }

  /**
    The reports around one `toUrl` call: the attempt, the call with the
    name and a dot, and, when the call returned, where the module is looked for.
  */
  function CallEvents(depName: string, f: FunctionId, path: Option<string>): (evs: seq<Event>)
    ensures ContextFree(evs)
    ensures |evs| >= 2 && evs[1] == ToUrlCalled(f, depName + ".")
    ensures forall i :: 0 <= i < |evs| && evs[i].ToUrlCalled? ==> i == 1
    ensures Count(evs, IsToUrlCall) == 1
    ensures Count(evs, IsError) == 0
  {
    var before := [DebugReported(Attempting(depName)), ToUrlCalled(f, depName + ".")];
    assert Count(before, IsToUrlCall) == 1 && Count(before, IsError) == 0;
    match path
    case None => before
    case Some(p) =>
      var after := [DebugReported(LookingFor(depName, p))];
      CountAppend(before, after, IsToUrlCall);
      CountAppend(before, after, IsError);
      before + after
  }

  /**
    `resolveWithRequire(depName)`: fails when `require` cannot be read or
    `toUrl` throws, answers `null` when `toUrl` is not a function, and
    otherwise answers `toUrl`'s result with its final dot stripped, all
    inside one balanced context bracket.
  */
  function ResolveWithRequire(engine: Engine, scope: Scope, depName: string): (r: Run<Option<string>>)
    ensures Balanced(r.events)
    ensures |r.events| >= 2 && r.events[0] == ContextEntered && r.events[|r.events| - 1] == ContextExited
    ensures r.result.Thrown? <==>
      || LookupToUrl(scope).Thrown?
      || (IsCallable(LookupToUrl(scope).value) && engine.call(LookupToUrl(scope).value.value.id, depName + ".").CallThrew?)
    ensures r.result == Normal(None) <==> LookupToUrl(scope).Normal? && !IsCallable(LookupToUrl(scope).value)
    ensures (&& LookupToUrl(scope).Normal? && IsCallable(LookupToUrl(scope).value)
             && engine.call(LookupToUrl(scope).value.value.id, depName + ".").Returned?) ==>
      r.result == Normal(Some(StripFinalDot(engine.call(LookupToUrl(scope).value.value.id, depName + ".").text)))
  {
    var body := ResolveBody(engine, scope, depName);
    ContextFreeIsBalanced(body.events);
    WithContextBalanced(body);
    WithContext(ResolveBody(engine, scope, depName))
  }

  /** The cache `after` keeps every entry of `before`. */
  ghost predicate CacheExtends(before: map<string, Option<string>>, after: map<string, Option<string>>)
  {
    forall k :: k in before ==> k in after && after[k] == before[k]
  }

  lemma CacheExtendsTransitive(a: map<string, Option<string>>, b: map<string, Option<string>>, c: map<string, Option<string>>)
    requires CacheExtends(a, b) && CacheExtends(b, c)
    ensures CacheExtends(a, c)
  {
  }

  /**
    `resolvePath(depName)`: a cached name (also one cached as `null`) is
    answered from the cache with no engine work; otherwise the engine is
    asked and its answer cached. An exception escaping the engine leaves
    the cache as it was.
  */
  function ResolvePath(engine: Engine, rt: Runtime, depName: string): (res: Resolution)
    ensures depName in rt.cache ==> res == Resolution(rt, [], Normal(rt.cache[depName]))
    ensures depName !in rt.cache ==>
      && res.events == ResolveWithRequire(engine, rt.scope, depName).events
      && res.outcome == ResolveWithRequire(engine, rt.scope, depName).result
    ensures res.outcome.Normal? ==> depName in res.runtime.cache && res.runtime.cache[depName] == res.outcome.value
    ensures res.outcome.Thrown? ==> res.runtime == rt
    ensures res.runtime.scope == rt.scope
    ensures CacheExtends(rt.cache, res.runtime.cache)
    ensures res.runtime.cache.Keys <= rt.cache.Keys + {depName}
    ensures Balanced(res.events)
  {
    if depName in rt.cache then
      ContextFreeIsBalanced([]);
      Resolution(rt, [], Normal(rt.cache[depName]))
    else
      var body := ResolveBody(engine, rt.scope, depName);
      ContextFreeIsBalanced(body.events);
      WithContextBalanced(body);
      var run := ResolveWithRequire(engine, rt.scope, depName);
      match run.result
      case Normal(path) => Resolution(rt.(cache := rt.cache[depName := path]), run.events, Normal(path))
      case Thrown(e) => Resolution(rt, run.events, Thrown(e))
  }

  predicate IsToUrlCallFor(depName: string, e: Event)
  {
    e.ToUrlCalled? && e.argument == depName + "."
  }

  predicate IsToUrlCall(e: Event) { e.ToUrlCalled? }

  predicate IsToUrlNotFound(e: Event) { e == ErrorReported(ToUrlNotFound) }

  /**
    A miss with a callable `toUrl` calls it exactly once, with `depName`
    followed by a dot, reports no error, and answers the call's result with
    its final dot stripped.
  */
  lemma ResolveMissCallsToUrlOnce(engine: Engine, rt: Runtime, depName: string)
    requires depName !in rt.cache
    requires LookupToUrl(rt.scope).Normal? && IsCallable(LookupToUrl(rt.scope).value)
    ensures var res := ResolvePath(engine, rt, depName);
      var f := LookupToUrl(rt.scope).value.value.id;
      && Count(res.events, IsToUrlCall) == 1
      && ToUrlCalled(f, depName + ".") in res.events
      && Count(res.events, IsError) == 0
      && (engine.call(f, depName + ".").Returned? ==>
            res.outcome == Normal(Some(StripFinalDot(engine.call(f, depName + ".").text))))
      && (engine.call(f, depName + ".").CallThrew? ==> res.outcome.Thrown? && res.runtime == rt)
  {
    var body := ResolveBody(engine, rt.scope, depName);
    CallableBodyEvents(engine, rt.scope, depName);
    var evs := ResolvePath(engine, rt, depName).events;
    assert evs == [ContextEntered] + body.events + [ContextExited];
    assert evs[2] == body.events[1];
    CountAppend([ContextEntered], body.events, IsToUrlCall);
    CountAppend([ContextEntered] + body.events, [ContextExited], IsToUrlCall);
    CountAppend([ContextEntered], body.events, IsError);
    CountAppend([ContextEntered] + body.events, [ContextExited], IsError);
  }

  /** The engine work of a miss with a callable `toUrl`, before the bracket is added. */
  lemma CallableBodyEvents(engine: Engine, scope: Scope, depName: string)
    requires LookupToUrl(scope).Normal? && IsCallable(LookupToUrl(scope).value)
    ensures var b := ResolveBody(engine, scope, depName);
      var f := LookupToUrl(scope).value.value.id;
      && |b.events| >= 2 && b.events[1] == ToUrlCalled(f, depName + ".")
      && Count(b.events, IsToUrlCall) == 1
      && Count(b.events, IsError) == 0
      && (engine.call(f, depName + ".").Returned? ==>
            b.result == Normal(Some(StripFinalDot(engine.call(f, depName + ".").text))))
      && (engine.call(f, depName + ".").CallThrew? ==> b.result.Thrown?)
  {
    var f := LookupToUrl(scope).value.value.id;
    var arg := depName + ".";
    var before := [DebugReported(Attempting(depName)), ToUrlCalled(f, arg)];
    assert Count(before, IsToUrlCall) == 1;
    assert Count(before, IsError) == 0;
    if engine.call(f, arg).Returned? {
      var tail := [DebugReported(LookingFor(depName, StripFinalDot(engine.call(f, arg).text)))];
      CountAppend(before, tail, IsToUrlCall);
      CountAppend(before, tail, IsError);
    }
  }

  /**
    A miss whose `toUrl` is missing or not a function reports exactly one
    error, never calls anything, answers `null` and caches `null`.
  */
  lemma ResolveMissNotCallable(engine: Engine, rt: Runtime, depName: string)
    requires depName !in rt.cache
    requires LookupToUrl(rt.scope).Normal? && !IsCallable(LookupToUrl(rt.scope).value)
    ensures var res := ResolvePath(engine, rt, depName);
      && res.outcome == Normal(None)
      && res.runtime.cache == rt.cache[depName := None]
      && Count(res.events, IsToUrlNotFound) == 1
      && Count(res.events, IsError) == 1
      && Count(res.events, IsToUrlCall) == 0
  {
    var res := ResolvePath(engine, rt, depName);
    var body := [ErrorReported(ToUrlNotFound)];
    assert res.events == [ContextEntered] + body + [ContextExited];
    CountAppend([ContextEntered], body, IsToUrlNotFound);
    CountAppend([ContextEntered] + body, [ContextExited], IsToUrlNotFound);
    CountAppend([ContextEntered], body, IsError);
    CountAppend([ContextEntered] + body, [ContextExited], IsError);
    CountAppend([ContextEntered], body, IsToUrlCall);
    CountAppend([ContextEntered] + body, [ContextExited], IsToUrlCall);
  }

  /** When `toUrl` answers the name with a dot appended, the resolved path is exactly that name. */
  lemma ResolveUndoesAppendedDot(engine: Engine, rt: Runtime, depName: string, answer: string)
    requires depName !in rt.cache
    requires LookupToUrl(rt.scope).Normal? && IsCallable(LookupToUrl(rt.scope).value)
    requires engine.call(LookupToUrl(rt.scope).value.value.id, depName + ".") == Returned(answer + ".")
    ensures ResolvePath(engine, rt, depName).outcome == Normal(Some(answer))
  {
    StripAppendedDot(answer);
  }

  /** Calling twice gives the same answer, and the second call does no engine work at all. */
  lemma ResolveTwiceSameAnswer(engine: Engine, rt: Runtime, depName: string)
    requires ResolvePath(engine, rt, depName).outcome.Normal?
    ensures var first := ResolvePath(engine, rt, depName);
      var second := ResolvePath(engine, first.runtime, depName);
      && second.outcome == first.outcome
      && second.events == []
      && second.runtime == first.runtime
  {
  }

  /**
    A new instance remembers nothing: with a callable `toUrl`, its first
    query for any name calls the engine, whatever an earlier instance cached.
  */
  lemma NewInstanceAsksEngineAgain(engine: Engine, requirePath: string, requireConfig: string, depName: string)
    requires Construct(engine, requirePath, requireConfig).result.Normal?
    requires var rt := Construct(engine, requirePath, requireConfig).result.value;
      LookupToUrl(rt.scope).Normal? && IsCallable(LookupToUrl(rt.scope).value)
    ensures var rt := Construct(engine, requirePath, requireConfig).result.value;
      Count(ResolvePath(engine, rt, depName).events, IsToUrlCall) == 1
  {
    var rt := Construct(engine, requirePath, requireConfig).result.value;
    ResolveMissCallsToUrlOnce(engine, rt, depName);
  }

  /** A sequence of `resolvePath` calls on one instance, stopping at the first escaping exception. */
  datatype Session = Session(runtime: Runtime, events: seq<Event>, answers: seq<Option<string>>, failed: bool)

  function ResolveAll(engine: Engine, rt: Runtime, names: seq<string>): (s: Session)
    ensures s.runtime.scope == rt.scope
    ensures CacheExtends(rt.cache, s.runtime.cache)
    ensures |s.answers| <= |names|
    ensures !s.failed ==> |s.answers| == |names|
    decreases |names|
  {
    if |names| == 0 then Session(rt, [], [], false)
    else
      var first := ResolvePath(engine, rt, names[0]);
      if first.outcome.Thrown? then Session(rt, first.events, [], true)
      else
        var rest := ResolveAll(engine, first.runtime, names[1..]);
        CacheExtendsTransitive(rt.cache, first.runtime.cache, rest.runtime.cache);
        Session(rest.runtime, first.events + rest.events, [first.outcome.value] + rest.answers, rest.failed)
  }

  /**
    A session fails only where a query throws: it answered every query
    before that one, and the instance it ends with is the one that query
    threw on, since a throwing query changes nothing.
  */
  lemma {:induction false} SessionStopsOnlyAtThrow(engine: Engine, rt: Runtime, names: seq<string>)
    ensures var s := ResolveAll(engine, rt, names);
      s.failed ==> |s.answers| < |names| && ResolvePath(engine, s.runtime, names[|s.answers|]).outcome.Thrown?
    decreases |names|
  {
    if |names| > 0 {
      var first := ResolvePath(engine, rt, names[0]);
      if first.outcome.Normal? {
        SessionStopsOnlyAtThrow(engine, first.runtime, names[1..]);
        ResolveAllStep(engine, rt, names);
        var rest := ResolveAll(engine, first.runtime, names[1..]);
        if rest.failed {
          assert names[1 + |rest.answers|] == names[1..][|rest.answers|];
        }
      }
    }
  }

  /** The context bracket adds no event that `p` counts. */
  lemma BracketKeepsCount(body: seq<Event>, p: Event -> bool)
    requires !p(ContextEntered) && !p(ContextExited)
    ensures Count([ContextEntered] + body + [ContextExited], p) == Count(body, p)
  {
    CountAppend([ContextEntered], body, p);
    CountAppend([ContextEntered] + body, [ContextExited], p);
  }

  /** A query calls `toUrl` at most once, and only with its own name followed by a dot. */
  lemma ResolveCallsOwnNameOnly(engine: Engine, rt: Runtime, depName: string)
    ensures var evs := ResolvePath(engine, rt, depName).events;
      && (forall i :: 0 <= i < |evs| && evs[i].ToUrlCalled? ==> evs[i].argument == depName + ".")
      && Count(evs, IsToUrlCall) <= 1
  {
    if depName !in rt.cache {
      var body := ResolveBody(engine, rt.scope, depName).events;
      var evs := ResolvePath(engine, rt, depName).events;
      assert evs == [ContextEntered] + body + [ContextExited];
      BracketKeepsCount(body, IsToUrlCall);
      forall i | 0 <= i < |evs| && evs[i].ToUrlCalled?
        ensures evs[i].argument == depName + "."
      {
        assert evs[i] == body[i - 1];
      }
    }
  }

  /** One query's events hold no `toUrl` call for any other name. */
  lemma {:induction false} ResolveCallsNoOtherName(engine: Engine, rt: Runtime, depName: string, other: string)
    requires other != depName
    ensures Count(ResolvePath(engine, rt, depName).events, e => IsToUrlCallFor(other, e)) == 0
  {
    var evs := ResolvePath(engine, rt, depName).events;
    ResolveCallsOwnNameOnly(engine, rt, depName);
    assert (depName + ".")[..|depName|] == depName;
    assert (other + ".")[..|other|] == other;
    CountNone(evs, e => IsToUrlCallFor(other, e));
  }

  /** One query calls `toUrl` for its own name at most once. */
  lemma ResolveCallsOwnNameAtMostOnce(engine: Engine, rt: Runtime, depName: string)
    ensures Count(ResolvePath(engine, rt, depName).events, e => IsToUrlCallFor(depName, e)) <= 1
  {
    var evs := ResolvePath(engine, rt, depName).events;
    ResolveCallsOwnNameOnly(engine, rt, depName);
    CountAtMost(evs, e => IsToUrlCallFor(depName, e), IsToUrlCall);
  }

  /** Every answer a session gives is what the cache holds for that name at its end. */
  lemma {:induction false} SessionAnswersAreCached(engine: Engine, rt: Runtime, names: seq<string>)
    ensures var s := ResolveAll(engine, rt, names);
      forall i :: 0 <= i < |s.answers| ==> names[i] in s.runtime.cache && s.runtime.cache[names[i]] == s.answers[i]
    decreases |names|
  {
    if |names| > 0 {
      var first := ResolvePath(engine, rt, names[0]);
      if first.outcome.Normal? {
        SessionAnswersAreCached(engine, first.runtime, names[1..]);
        ResolveAllStep(engine, rt, names);
        var rest := ResolveAll(engine, first.runtime, names[1..]);
        var s := ResolveAll(engine, rt, names);
        forall i | 0 <= i < |s.answers|
          ensures names[i] in s.runtime.cache && s.runtime.cache[names[i]] == s.answers[i]
        {
          if i > 0 {
            assert s.answers[i] == rest.answers[i - 1] && names[i] == names[1..][i - 1];
          }
        }
      }
    }
  }

  /** Once a name is cached, no later query in the session calls `toUrl` for it. */
  lemma {:induction false} NoCallsOnceCached(engine: Engine, rt: Runtime, names: seq<string>, depName: string)
    requires depName in rt.cache
    ensures Count(ResolveAll(engine, rt, names).events, e => IsToUrlCallFor(depName, e)) == 0
    decreases |names|
  {
    var p := e => IsToUrlCallFor(depName, e);
    if |names| > 0 {
      var first := ResolvePath(engine, rt, names[0]);
      if names[0] == depName {
        assert first.events == [];
      } else {
        ResolveCallsNoOtherName(engine, rt, names[0], depName);
      }
      if first.outcome.Normal? {
        NoCallsOnceCached(engine, first.runtime, names[1..], depName);
        CountAppend(first.events, ResolveAll(engine, first.runtime, names[1..]).events, p);
      }
    }
  }

  /**
    Memoisation over a whole session: whatever names are asked, in any
    order and any number of times, `toUrl` is called at most once for each.
  */
  lemma {:induction false} AtMostOneCallPerName(engine: Engine, rt: Runtime, names: seq<string>, depName: string)
    ensures Count(ResolveAll(engine, rt, names).events, e => IsToUrlCallFor(depName, e)) <= 1
    decreases |names|
  {
    var p := e => IsToUrlCallFor(depName, e);
    if |names| > 0 {
      var first := ResolvePath(engine, rt, names[0]);
      if names[0] == depName {
        ResolveCallsOwnNameAtMostOnce(engine, rt, depName);
        if first.outcome.Normal? {
          NoCallsOnceCached(engine, first.runtime, names[1..], depName);
          CountAppend(first.events, ResolveAll(engine, first.runtime, names[1..]).events, p);
        }
      } else {
        ResolveCallsNoOtherName(engine, rt, names[0], depName);
        if first.outcome.Normal? {
          AtMostOneCallPerName(engine, first.runtime, names[1..], depName);
          CountAppend(first.events, ResolveAll(engine, first.runtime, names[1..]).events, p);
        }
      }
    }
  }

  /**
    A query whose `toUrl` call throws caches nothing, so asking for the
    same name again calls `toUrl` again: memoisation covers only answers.
  */
  lemma ThrowingNameIsRetried(engine: Engine, rt: Runtime, depName: string)
    requires depName !in rt.cache
    requires LookupToUrl(rt.scope).Normal? && IsCallable(LookupToUrl(rt.scope).value)
    requires engine.call(LookupToUrl(rt.scope).value.value.id, depName + ".").CallThrew?
    ensures var first := ResolvePath(engine, rt, depName);
      var again := ResolvePath(engine, first.runtime, depName);
      && first.outcome.Thrown? && again.outcome.Thrown?
      && Count(first.events, IsToUrlCall) == 1
      && Count(again.events, IsToUrlCall) == 1
  {
    ResolveMissCallsToUrlOnce(engine, rt, depName);
  }

  /** Names a session asks for that the cache did not already hold. */
  function NewNames(cache: map<string, Option<string>>, names: seq<string>): set<string>
  {
    set i | 0 <= i < |names| && names[i] !in cache :: names[i]
  }

  lemma NewNamesSkipCached(cache: map<string, Option<string>>, names: seq<string>)
    requires |names| > 0 && names[0] in cache
    ensures NewNames(cache, names) == NewNames(cache, names[1..])
  {
  }

  lemma NewNamesAfterMiss(cache: map<string, Option<string>>, names: seq<string>, v: Option<string>)
    requires |names| > 0 && names[0] !in cache
    ensures names[0] in NewNames(cache, names)
    ensures NewNames(cache[names[0] := v], names[1..]) == NewNames(cache, names) - {names[0]}
  {
  }

  /** One step of a session whose first query completes normally. */
  lemma ResolveAllStep(engine: Engine, rt: Runtime, names: seq<string>)
    requires |names| > 0 && ResolvePath(engine, rt, names[0]).outcome.Normal?
    ensures var first := ResolvePath(engine, rt, names[0]);
      var rest := ResolveAll(engine, first.runtime, names[1..]);
      ResolveAll(engine, rt, names) == Session(rest.runtime, first.events + rest.events, [first.outcome.value] + rest.answers, rest.failed)
  {
  }

  /**
    With a `require` object whose `toUrl` is not a function, no query of a
    session fails and every answer is `null`.
  */
  lemma {:induction false} MissingToUrlAnswersNull(engine: Engine, rt: Runtime, names: seq<string>)
    requires LookupToUrl(rt.scope).Normal? && !IsCallable(LookupToUrl(rt.scope).value)
    requires forall k :: k in rt.cache ==> rt.cache[k] == None
    ensures var s := ResolveAll(engine, rt, names);
      && !s.failed
      && forall i :: 0 <= i < |s.answers| ==> s.answers[i] == None
    decreases |names|
  {
    if |names| > 0 {
      var first := ResolvePath(engine, rt, names[0]);
      if names[0] !in rt.cache {
        ResolveMissNotCallable(engine, rt, names[0]);
      }
      assert first.outcome == Normal(None);
      MissingToUrlAnswersNull(engine, first.runtime, names[1..]);
      ResolveAllStep(engine, rt, names);
    }
  }

  /**
    With a `require` object whose `toUrl` is not a function, a session
    reports the missing `toUrl` exactly once per distinct name it had not
    seen, however often each name is asked.
  */
  lemma {:induction false} OneReportPerMissingName(engine: Engine, rt: Runtime, names: seq<string>)
    requires LookupToUrl(rt.scope).Normal? && !IsCallable(LookupToUrl(rt.scope).value)
    requires forall k :: k in rt.cache ==> rt.cache[k] == None
    ensures Count(ResolveAll(engine, rt, names).events, IsToUrlNotFound) == |NewNames(rt.cache, names)|
    decreases |names|
  {
    if |names| > 0 {
      var d := names[0];
      var first := ResolvePath(engine, rt, d);
      var next := first.runtime;
      if d in rt.cache {
        assert first.events == [] && next == rt;
        NewNamesSkipCached(rt.cache, names);
      } else {
        ResolveMissNotCallable(engine, rt, d);
        NewNamesAfterMiss(rt.cache, names, None);
      }
      assert first.outcome == Normal(None);
      OneReportPerMissingName(engine, next, names[1..]);
      ResolveAllStep(engine, rt, names);
      CountAppend(first.events, ResolveAll(engine, next, names[1..]).events, IsToUrlNotFound);
    }
  }
}

=== FILE: scripting_host.dfy ===
/** Small option type used across the model (Java's nullable references). */
module Options {

  datatype Option<+T> = None | Some(value: T)
}

/**
  The engine-facing parts of `RequireJsRuntime`, collected in one module:
  the embedded JavaScript engine seen from the outside, the events the
  core produces, and that class's private `withContext` method, the
  bracket that pairs every context entry with one exit.

  The engine itself is not modelled. It is an oracle (`Engine`) that says
  what evaluating a file against a scope yields and what a JavaScript
  function returns when called with one string argument.
*/
module ScriptingHost {
  import opened Options
  import opened Counting

  /** Exceptions the Java code lets escape; the model only records which. */
  datatype Exception =
    | ClassCast                 // a global that is not a Scriptable object, cast to one
    | NullPointer               // a member looked up on a null `require`
    | Escaped(message: string)  // any other exception thrown inside the engine

  /** How a piece of Java code finished: with a value or with an exception. */
  datatype Completion<+T> = Normal(value: T) | Thrown(exception: Exception)

  /** Identity of a JavaScript function object; the engine oracle knows its behaviour. */
  type FunctionId = nat

  /** The JavaScript values the resolver distinguishes. */
  datatype JsValue =
    | JsNull
    | JsUndefined
    | JsPrimitive(text: string)
    | JsObject(props: map<string, JsValue>)
    | JsFunction(id: FunctionId, props: map<string, JsValue>)

  /** The global scope: global names and what they are bound to. */
  type Scope = map<string, JsValue>

  /** What reading and evaluating one script file against a scope produces. */
  datatype EvalOutcome =
    | Evaluated(scope: Scope)                        // ran to the end
    | ReadFailed(message: string)                    // IOException before anything ran
    | ScriptFailed(scope: Scope, message: string)    // EcmaError / ECMAException, after partial evaluation
    | Raised(message: string)                        // any other exception, not caught by the code

  /** What calling a JavaScript function with one argument produces, already passed through `Context.toString`. */
  datatype CallOutcome = Returned(text: string) | CallThrew(message: string)

  /** The engine oracle. */
  datatype Engine = Engine(
    standardObjects: Scope,                    // `initStandardObjects()`
    evaluate: (Scope, string) -> EvalOutcome,  // read the file at a path and evaluate it
    call: (FunctionId, string) -> CallOutcome) // `Function.call` with a single argument

  /** Error messages sent to the notification sink; only their cause is kept. */
  datatype ErrorReport =
    | FileReadError(path: string, message: string)
    | FileScriptError(path: string, message: string)
    | ToUrlNotFound

  /** Debug messages sent to the notification sink. */
  datatype DebugReport =
    | Attempting(depName: string)
    | LookingFor(depName: string, path: string)

  /** Everything observable the core does, in order. */
  datatype Event =
    | ContextEntered
    | ContextExited
    | NullDefined(name: string)                       // `var <name> = null;` evaluated in the global scope
    | FileLoadAttempted(path: string, scope: Scope)   // `evaluateFile` called with this scope; emitted also when the file cannot be read
    | ToUrlCalled(fn: FunctionId, argument: string)
    | ErrorReported(error: ErrorReport)
    | DebugReported(debug: DebugReport)

  /** The events a piece of code produced and how it finished. */
  datatype Run<+T> = Run(events: seq<Event>, result: Completion<T>)

  predicate IsEnter(e: Event) { e.ContextEntered? }
  predicate IsExit(e: Event) { e.ContextExited? }

  /** How many engine contexts a trace leaves entered (`Context.enter` minus `Context.exit`). */
  function Depth(events: seq<Event>): int
  {
    Count(events, IsEnter) - Count(events, IsExit)
  }

  /** Every prefix has entered at least as often as it exited, and the whole trace exits all it entered. */
  ghost predicate Balanced(events: seq<Event>)
  {
    && (forall k :: 0 <= k <= |events| ==> Depth(events[..k]) >= 0)
    && Depth(events) == 0
  }

  /** A trace that neither enters nor exits a context. */
  predicate ContextFree(events: seq<Event>)
  {
    forall i :: 0 <= i < |events| ==> !events[i].ContextEntered? && !events[i].ContextExited?
  }

  lemma {:induction false} ContextFreeIsBalanced(events: seq<Event>)
    requires ContextFree(events)
    ensures Balanced(events)
  {
    forall k | 0 <= k <= |events|
      ensures Depth(events[..k]) == 0
    {
      CountNone(events[..k], IsEnter);
      CountNone(events[..k], IsExit);
    }
    assert events[..|events|] == events;
  }

  lemma DepthAppend(xs: seq<Event>, ys: seq<Event>)
    ensures Depth(xs + ys) == Depth(xs) + Depth(ys)
  {
    CountAppend(xs, ys, IsEnter);
    CountAppend(xs, ys, IsExit);
  }

  /**
    `withContext(fn)`: enter a context, run `fn`, exit the context in a
    `finally`, so on a normal return and on an exception alike.
  */
  function WithContext<T>(body: Run<T>): (r: Run<T>)
    ensures r.result == body.result
    ensures |r.events| == |body.events| + 2
    ensures r.events[0] == ContextEntered && r.events[|r.events| - 1] == ContextExited
    ensures r.events[1..|r.events| - 1] == body.events
  {
    Run([ContextEntered] + body.events + [ContextExited], body.result)
  }

  /**
    The bracket keeps a balanced body balanced, whichever way the body
    finished: the enter is the first event and its exit the last.
  */
  lemma {:induction false} WithContextBalanced<T>(body: Run<T>)
    requires Balanced(body.events)
    ensures Balanced(WithContext(body).events)
    ensures Depth(WithContext(body).events) == 0
  {
    var b := body.events;
    var evs := WithContext(body).events;
    assert evs == [ContextEntered] + b + [ContextExited];
    assert Depth([ContextEntered]) == 1 && Depth([ContextExited]) == -1;
    DepthAppend([ContextEntered], b);
    DepthAppend([ContextEntered] + b, [ContextExited]);
    assert b[..|b|] == b;
    forall k | 0 <= k <= |evs|
      ensures Depth(evs[..k]) >= 0
    {
      if k == 0 {
        assert evs[..k] == [];
      } else if k <= |b| + 1 {
        assert evs[..k] == [ContextEntered] + b[..k - 1];
        DepthAppend([ContextEntered], b[..k - 1]);
        assert Depth(b[..k - 1]) >= 0;
      } else {
        assert evs[..k] == evs;
      }
    }
  }
}

=== FILE: settings.dfy ===
/**
  The plugin's project settings (`Settings`): eight scalar options, the
  module exclusion list, and the listeners told about the state whenever
  the IDE asks for it.
*/
module RequirejsSettings {
  import opened Options
  import opened Counting

  /** A registered `SettingsListener`, by identity. */
  type ListenerId = nat

  /** The IDE project the settings were last fetched for. */
  type ProjectId = nat

  datatype Settings = Settings(
    publicPath: string,
    configFilePath: string,
    baseUrl: string,
    requireJsPath: string,
    overrideBaseUrl: bool,
    pluginEnabled: bool,
    requireJsEnabled: bool,
    enableLogging: bool,
    exclusionList: seq<string>,
    listeners: seq<ListenerId>,
    project: Option<ProjectId>)

  const DefaultPublicPath := "public"
  const DefaultConfigFilePath := "main.js"
  const DefaultBaseUrl := "."
  const DefaultRequireJsPath := "public/lib/require.js"
  const DefaultPluginEnabled := false
  const DefaultOverrideBaseUrl := false
  const DefaultRequireJsEnabled := false
  const DefaultLoggingEnabled := false

  /** `new Settings()`: every field at its declared default, no exclusions, nobody listening, no project yet. */
  function Fresh(): (r: Settings)
    ensures && r.publicPath == "public" && r.configFilePath == "main.js"
            && r.baseUrl == "." && r.requireJsPath == "public/lib/require.js"
            && !r.overrideBaseUrl && !r.pluginEnabled && !r.requireJsEnabled && !r.enableLogging
            && r.exclusionList == [] && r.listeners == [] && r.project == None
  {
    Settings(DefaultPublicPath, DefaultConfigFilePath, DefaultBaseUrl, DefaultRequireJsPath,
             DefaultOverrideBaseUrl, DefaultPluginEnabled, DefaultRequireJsEnabled, DefaultLoggingEnabled,
             [], [], None)
  }

  /** The eight scalar fields `getVersion` hashes, in its order. */
  datatype VersionKey = VersionKey(
    publicPath: string, configFilePath: string, baseUrl: string, requireJsPath: string,
    overrideBaseUrl: bool, pluginEnabled: bool, requireJsEnabled: bool, enableLogging: bool)

  function KeyOf(s: Settings): VersionKey
  {
    VersionKey(s.publicPath, s.configFilePath, s.baseUrl, s.requireJsPath,
               s.overrideBaseUrl, s.pluginEnabled, s.requireJsEnabled, s.enableLogging)
  }

  /** The two settings agree on every field `getVersion` reads. */
  predicate SameScalars(a: Settings, b: Settings)
  {
    && a.publicPath == b.publicPath
    && a.configFilePath == b.configFilePath
    && a.baseUrl == b.baseUrl
    && a.requireJsPath == b.requireJsPath
    && a.overrideBaseUrl == b.overrideBaseUrl
    && a.pluginEnabled == b.pluginEnabled
    && a.requireJsEnabled == b.requireJsEnabled
    && a.enableLogging == b.enableLogging
  }

  /** `getVersion`, with `Objects.hash` as the parameter `hash`. */
  function Version(s: Settings, hash: VersionKey -> int): (r: int)
    ensures forall t :: SameScalars(s, t) ==> r == hash(KeyOf(t))
  {
    hash(KeyOf(s))
  }

  /** The version reads the eight scalars and nothing else: not the exclusions, the listeners or the project. */
  lemma VersionIgnoresOtherFields(a: Settings, b: Settings, hash: VersionKey -> int)
    requires SameScalars(a, b)
    ensures Version(a, hash) == Version(b, hash)
  {
  }

  /** With a collision-free hash, the version tells settings apart exactly when a scalar differs. */
  lemma VersionDistinguishesScalars(a: Settings, b: Settings, hash: VersionKey -> int)
    requires forall x, y :: hash(x) == hash(y) ==> x == y
    ensures Version(a, hash) == Version(b, hash) <==> SameScalars(a, b)
  {
  }

  /** `registerListener`: `listeners.add(listener)`. */
  function RegisterListener(s: Settings, l: ListenerId): (r: Settings)
    ensures |r.listeners| == |s.listeners| + 1
    ensures r.listeners[|s.listeners|] == l
    ensures r.listeners[..|s.listeners|] == s.listeners
    ensures r.(listeners := s.listeners) == s
  {
    s.(listeners := s.listeners + [l])
  }

  /** `List.remove(Object)`: drop the first element equal to `x`, if any. */
  function RemoveFirst<T(==)>(xs: seq<T>, x: T): (r: seq<T>)
    ensures x !in xs ==> r == xs
    ensures x in xs ==> |r| == |xs| - 1
    ensures multiset(r) == multiset(xs) - multiset{x}
  {
    if |xs| == 0 then []
    else if xs[0] == x then
      assert xs == [xs[0]] + xs[1..];
      xs[1..]
    else
      assert xs == [xs[0]] + xs[1..];
      [xs[0]] + RemoveFirst(xs[1..], x)
  }

  /** The element removed is the first occurrence; the order of the rest is kept. */
  lemma {:induction false} RemoveFirstOccurrence<T>(xs: seq<T>, x: T, i: nat)
    requires i < |xs| && xs[i] == x && x !in xs[..i]
    ensures RemoveFirst(xs, x) == xs[..i] + xs[i + 1..]
  {
    if i > 0 {
      SplitAfterHead(xs, i);
      RemoveFirstOccurrence(xs[1..], x, i - 1);
    }
  }

  /** Cutting position `i` out of `xs` keeps the head in front. */
  lemma SplitAfterHead<T>(xs: seq<T>, i: nat)
    requires 0 < i < |xs|
    ensures xs[..i] == [xs[0]] + xs[1..][..i - 1]
    ensures xs[..i] + xs[i + 1..] == [xs[0]] + (xs[1..][..i - 1] + xs[1..][i..])
  {
    assert xs[1..][i..] == xs[i + 1..];
  }

  /** `removeListener`. */
  function RemoveListener(s: Settings, l: ListenerId): (r: Settings)
    ensures r.(listeners := s.listeners) == s
    ensures l !in s.listeners ==> r == s
    ensures multiset(r.listeners) == multiset(s.listeners) - multiset{l}
  {
    s.(listeners := RemoveFirst(s.listeners, l))
  }

  /** Removing a listener that was just registered, and not before, restores the settings. */
  lemma RemoveUndoesRegister(s: Settings, l: ListenerId)
    requires l !in s.listeners
    ensures RemoveListener(RegisterListener(s, l), l) == s
  {
    var xs := s.listeners + [l];
    assert xs[..|s.listeners|] == s.listeners;
    RemoveFirstOccurrence(xs, l, |s.listeners|);
  }

  /** Removing takes out only the earliest registration of a listener registered twice. */
  lemma RemoveKeepsLaterDuplicate(s: Settings, l: ListenerId)
    requires l !in s.listeners
    ensures RemoveListener(RegisterListener(RegisterListener(s, l), l), l) == RegisterListener(s, l)
  {
    var xs := s.listeners + [l] + [l];
    assert xs[..|s.listeners|] == s.listeners;
    RemoveFirstOccurrence(xs, l, |s.listeners|);
    assert xs[|s.listeners| + 1..] == [l];
  }

  /** One `settingsChanged(this)` call. */
  datatype Notification = SettingsChanged(listener: ListenerId, state: Settings)

  /**
    `getState`: call every listener entry, in registration order, with the
    settings themselves, then return them unchanged.
  */
  method GetState(s: Settings) returns (state: Settings, sent: seq<Notification>)
    ensures state == s
    ensures |sent| == |s.listeners|
    ensures forall i :: 0 <= i < |sent| ==> sent[i] == SettingsChanged(s.listeners[i], s)
  {
    sent := [];
    var i := 0;
    while i < |s.listeners|
      invariant 0 <= i <= |s.listeners|
      invariant |sent| == i
      invariant forall j :: 0 <= j < i ==> sent[j] == SettingsChanged(s.listeners[j], s)
    {
      sent := sent + [SettingsChanged(s.listeners[i], s)];
      i := i + 1;
    }
    state := s;
  }

  /** The notifications addressed to `l`. */
  function SentTo(l: ListenerId): Notification -> bool
  {
    (n: Notification) => n.listener == l
  }

  /** Every registration is one notification: a listener registered twice hears twice, an unregistered one never. */
  lemma {:induction false} NotifiedOncePerRegistration(ls: seq<ListenerId>, s: Settings, sent: seq<Notification>, l: ListenerId)
    requires |sent| == |ls|
    requires forall i :: 0 <= i < |sent| ==> sent[i] == SettingsChanged(ls[i], s)
    ensures Count(sent, SentTo(l)) == multiset(ls)[l]
  {
    if |ls| > 0 {
      NotifiedOncePerRegistration(ls[1..], s, sent[1..], l);
      assert ls == [ls[0]] + ls[1..];
    }
  }
}

=== FILE: settings_page.dfy ===
/**
  The decision logic of the settings page (`RequirejsSettingsPage`): when
  the form counts as modified, what saving writes, what loading and reset
  restore, and the order in which applying notifies the rest of the
  plugin. The Swing widgets are replaced by a snapshot of their values.
*/
module SettingsPage {
  import opened RequirejsSettings

  /** The values the page's widgets hold; `exclusionList` is the list model's contents in order. */
  datatype Form = Form(
    pluginEnabled: bool,
    publicPath: string,
    configFilePath: string,
    overrideBaseUrl: bool,
    baseUrl: string,
    requireJsEnabled: bool,
    requireJsPath: string,
    enableLogging: bool,
    exclusionList: seq<string>)

  /** The elements of a list, forgetting order and repetition. */
  function ElementsOf(xs: seq<string>): set<string>
  {
    set x | x in xs
  }

  /** `a.containsAll(b)`. */
  function ContainsAll(a: seq<string>, b: seq<string>): (r: bool)
    ensures r <==> ElementsOf(b) <= ElementsOf(a)
  {
    if |b| == 0 then true
    else
      assert ElementsOf(b) == {b[0]} + ElementsOf(b[1..]);
      b[0] in a && ContainsAll(a, b[1..])
  }

  /** `getExclusionList`: copy the list model's elements, one by one, into a new list. */
  method GetExclusionList(model: seq<string>) returns (values: seq<string>)
    ensures |values| == |model|
    ensures forall i :: 0 <= i < |model| ==> values[i] == model[i]
  {
    values := [];
    var i := 0;
    while i < |model|
      invariant 0 <= i <= |model|
      invariant values == model[..i]
    {
      values := values + [model[i]];
      i := i + 1;
    }
  }

  /**
    `listChanged`: despite its name, true when the two lists hold the same
    elements, whatever their order and repetitions.
  */
  function ListChanged(f: Form, s: Settings): (r: bool)
    ensures r <==> ElementsOf(f.exclusionList) == ElementsOf(s.exclusionList)
  {
    ContainsAll(f.exclusionList, s.exclusionList) && ContainsAll(s.exclusionList, f.exclusionList)
  }

  /** Every widget shows the value its setting holds. */
  predicate WidgetsMatch(f: Form, s: Settings)
  {
    && f.pluginEnabled == s.pluginEnabled
    && f.publicPath == s.publicPath
    && f.configFilePath == s.configFilePath
    && f.overrideBaseUrl == s.overrideBaseUrl
    && f.baseUrl == s.baseUrl
    && f.requireJsEnabled == s.requireJsEnabled
    && f.requireJsPath == s.requireJsPath
    && f.enableLogging == s.enableLogging
  }

  /**
    `isModified`, written as the code writes it: `!box.isSelected() == flag`
    for each check box and `!listChanged()` for the list.
  */
  function IsModified(f: Form, s: Settings): (r: bool)
    ensures r <==> !WidgetsMatch(f, s) || ElementsOf(f.exclusionList) != ElementsOf(s.exclusionList)
  {
    || (!f.pluginEnabled) == s.pluginEnabled
    || f.publicPath != s.publicPath
    || f.configFilePath != s.configFilePath
    || (!f.overrideBaseUrl) == s.overrideBaseUrl
    || f.baseUrl != s.baseUrl
    || (!f.requireJsEnabled) == s.requireJsEnabled
    || f.requireJsPath != s.requireJsPath
    || (!f.enableLogging) == s.enableLogging
    || !ListChanged(f, s)
  }

  /** Adding an element the list already holds does not change the list check. */
  lemma ListCheckIgnoresRepetition(f: Form, s: Settings, x: string)
    requires x in f.exclusionList
    ensures ListChanged(f.(exclusionList := f.exclusionList + [x]), s) == ListChanged(f, s)
  {
  }

  /** Reordering the list does not change the list check. */
  lemma ListCheckIgnoresOrder(f: Form, s: Settings, ys: seq<string>)
    requires multiset(ys) == multiset(f.exclusionList)
    ensures ListChanged(f.(exclusionList := ys), s) == ListChanged(f, s)
  {
    assert forall x :: x in ys <==> x in multiset(ys);
    assert forall x :: x in f.exclusionList <==> x in multiset(f.exclusionList);
    assert ElementsOf(ys) == ElementsOf(f.exclusionList);
  }

  /**
    `saveSettings`: copy every widget into the settings, except that the
    base URL is written only when the override box is checked.
  */
  function SaveSettings(f: Form, s: Settings): (r: Settings)
    ensures r.baseUrl == (if f.overrideBaseUrl then f.baseUrl else s.baseUrl)
    ensures r.(baseUrl := f.baseUrl) == Settings(f.publicPath, f.configFilePath, f.baseUrl, f.requireJsPath,
                                                 f.overrideBaseUrl, f.pluginEnabled, f.requireJsEnabled, f.enableLogging,
                                                 f.exclusionList, s.listeners, s.project)
  {
    var s1 := s.(pluginEnabled := f.pluginEnabled, publicPath := f.publicPath,
                 configFilePath := f.configFilePath, overrideBaseUrl := f.overrideBaseUrl);
    var s2 := if s1.overrideBaseUrl then s1.(baseUrl := f.baseUrl) else s1;
    s2.(requireJsEnabled := f.requireJsEnabled, requireJsPath := f.requireJsPath,
        enableLogging := f.enableLogging, exclusionList := f.exclusionList)
  }

  /**
    After saving, the page still reads as modified exactly when the
    override box is unchecked and the base URL field differs from the
    stored base URL.
  */
  lemma SavedFormIsUnmodifiedUnlessBaseUrlSkipped(f: Form, s: Settings)
    ensures IsModified(f, SaveSettings(f, s)) <==> !f.overrideBaseUrl && f.baseUrl != s.baseUrl
  {
  }

  /** `loadSettings` (and `reset`, which only calls it): every scalar widget from the settings; the list model is left alone. */
  function LoadSettings(f: Form, s: Settings): (r: Form)
    ensures WidgetsMatch(r, s)
    ensures r.exclusionList == f.exclusionList
  {
    Form(s.pluginEnabled, s.publicPath, s.configFilePath, s.overrideBaseUrl, s.baseUrl,
         s.requireJsEnabled, s.requireJsPath, s.enableLogging, f.exclusionList)
  }

  function Reset(f: Form, s: Settings): (r: Form)
    ensures WidgetsMatch(r, s)
    ensures r.exclusionList == f.exclusionList
  {
    LoadSettings(f, s)
  }

  /** Reset does not restore the list: the page stays modified exactly when the lists differ as sets. */
  lemma ResetLeavesListDifference(f: Form, s: Settings)
    ensures IsModified(Reset(f, s), s) <==> ElementsOf(f.exclusionList) != ElementsOf(s.exclusionList)
  {
  }

  /** Saving what was just loaded changes nothing but the exclusion list, which takes the form's. */
  lemma SaveAfterLoad(f: Form, s: Settings)
    ensures SaveSettings(LoadSettings(f, s), s) == s.(exclusionList := f.exclusionList)
  {
  }

  /** Loading what was just saved gives the form back, unless the base URL was skipped and differs. */
  lemma LoadAfterSave(f: Form, s: Settings)
    ensures LoadSettings(f, SaveSettings(f, s)) == f <==> f.overrideBaseUrl || f.baseUrl == s.baseUrl
  {
  }

  /** The data side of `createComponent`: widgets loaded and the list model built from the settings' list. */
  function OpenForm(f: Form, s: Settings): (r: Form)
    ensures !IsModified(r, s)
  {
    LoadSettings(f, s).(exclusionList := s.exclusionList)
  }

  /** What `apply` makes happen outside the settings object, in order. */
  datatype PageEvent = ParseCleared | SettingsWritten | SettingsValidated | ResolveCachesDropped

  datatype Applied = Applied(settings: Settings, events: seq<PageEvent>)

  /**
    `apply`: clear the parse state, save (which writes the settings and then
    has them validated), then drop the IDE's resolve caches.
  */
  function Apply(f: Form, s: Settings): (r: Applied)
    ensures r.settings == SaveSettings(f, s)
    ensures |r.events| >= 2 && r.events[0] == ParseCleared && r.events[|r.events| - 1] == ResolveCachesDropped
    ensures SettingsWritten in r.events[1..|r.events| - 1] && SettingsValidated in r.events[1..|r.events| - 1]
    ensures forall i, j :: 0 <= i < |r.events| && 0 <= j < |r.events| && r.events[i] == SettingsWritten && r.events[j] == SettingsValidated ==> i < j
    ensures forall i, j :: 0 <= i < j < |r.events| ==> r.events[i] != r.events[j]
  {
    var events := [ParseCleared, SettingsWritten, SettingsValidated, ResolveCachesDropped];
    assert events[1..|events| - 1] == [SettingsWritten, SettingsValidated];
    Applied(SaveSettings(f, s), events)
  }

  /** After applying, the page reads as modified only when the skipped base URL differs from the stored one. */
  lemma ApplyLeavesPageUnmodified(f: Form, s: Settings)
    ensures IsModified(f, Apply(f, s).settings) <==> !f.overrideBaseUrl && f.baseUrl != s.baseUrl
  {
    SavedFormIsUnmodifiedUnlessBaseUrlSkipped(f, s);
  }
}
